=== FILE: README.md ===
# notion-data-service: a Dafny model of the caching and ignore-list core

This project models the core of the Notion data service (`notion/service.go`). The service is a caching façade in front of Notion's paginated database-query API. It keeps a cache of normalised records for each database id. It rebuilds that cache on every refresh cycle. It answers reads from the cache and fetches on a miss. It also keeps an *ignore list*: a map from the normalised database id to the time of the last failed on-demand fetch. For five minutes after a failure, further on-demand fetches of that database are refused. A cleanup loop sweeps out expired entries.

The model drops the locks and goroutines. Each operation becomes one atomic transition on an immutable `Service` value (known databases, cache, ignore list):

- Time is an integer argument `now`, in nanoseconds.
- The remote source is a *script*: the finite sequence of answers it gives to successive page requests. Each answer is a page with its next cursor, a call that succeeded without a page, or an error.
- For a refresh cycle, the remote is a function from database id to script.

Modules, following the source's components:

- `Wrappers`: `Option` and `Result`.
- `Time`: the `Instant` type (nanoseconds) and the second and minute constants.
- `Identifiers`: stripping separators from ids (`normalizedNotionID`, and the hyphen stripping applied to item ids).
- `Records`: the record normaliser (`processPageProperties`). It uses a closed datatype with one variant per property kind.
- `IgnoreList`: `IsDatabaseIgnored`, `ignoreNotionDatabase`, and the sweep in `CleanupLoop`.
- `Pagination`: the page loop of `QueryDatabase`.
- `NotionService`: the service state, `QueryDatabase` with its conditional cache upsert, `QueryDatabaseCached`, `ListDatabases`, `update`, and scenario lemmas that relate several operations.

Behaviours of the code worth knowing, which the model keeps:

- A call that returns neither an error nor a page ends the fetch successfully with no records (`notion/service.go:169-171`). Records from earlier pages are discarded. On an on-demand read nothing is cached and the database is not ignored. A refresh keeps the key, with an empty record list (`notion/service.go:82-83`), which later reads serve from the cache.
- A property of an unrecognised kind is still emitted, with an empty value list (`notion/service.go:202-204`, `notion/service.go:296`).
- Properties are emitted in the order the page's property map is enumerated. The model takes that enumeration as an input sequence and claims no particular order.
- `update` on an empty cache returns without replacing the map (`notion/service.go:72-75`). Since the rebuilt map would also be empty, this is a no-op in the model too.

## Model

| member | source | states |
|---|---|---|
| `Identifiers.Strip` | notion/service.go:197 | removing a character leaves none of it and keeps the count of every other character |
| `Identifiers.StripAppend` | notion/service.go:348-351 | stripping distributes over concatenation, so surviving characters keep their order |
| `Identifiers.StripFixpoint` | notion/service.go:348-351 | stripping leaves a string unchanged exactly when the character is absent |
| `Identifiers.NormalizedNotionId` | notion/service.go:348-351 | the normal form has no space and no hyphen, and keeps the count of every other character |
| `Identifiers.NormalizedAppend` | notion/service.go:348-351 | normalisation distributes over concatenation (other characters stay in their original order) |
| `Identifiers.NormalizedFixpoint` | notion/service.go:348-351 | an id is its own normal form iff it has no space and no hyphen |
| `Identifiers.NormalizedIdempotent` | notion/service.go:348-351 | normalising twice equals normalising once |
| `Identifiers.SeparatorInsensitive` | notion/service.go:348-351 | inserting a space or hyphen anywhere does not change the normal form ("abc-123", "abc 123", "abc123") |
| `Records.PropertyValues` | notion/service.go:204-295 | title, select, url, checkbox, email, phone, formula, number, time and user kinds yield exactly one value: the url, email, phone, formula text or user name itself, or the number or time passed through its renderer; rich text, text, multi-select and people yield their elements in order; a title yields the join of its segments; a checkbox yields "true" iff checked, else "false"; a date yields start then end, each only if present; unknown kinds yield nothing |
| `Records.ProcessPage` | notion/service.go:196-298 | the item id is the page id without hyphens; the item keeps the page's last-edited time; there is one property per input property, same name, values as above |
| `Records.ProcessPageProperties` | notion/service.go:194-313 | one item per page, in page order |
| `Records.ProcessAppend` | notion/service.go:194-313 | normalising two batches in sequence equals normalising their concatenation |
| `IgnoreList.IsDatabaseIgnored` | notion/service.go:315-330 | true iff the normal form of the id has an entry t with now strictly before t + 5 minutes |
| `IgnoreList.IsKnownDatabase` | notion/service.go:337-342 | true iff some known database has the given normal form |
| `IgnoreList.IgnoreNotionDatabase` | notion/service.go:332-346 | a known normal form leaves the list unchanged; otherwise its entry becomes now, overwriting any earlier one; every other entry is untouched and no other key appears |
| `IgnoreList.CleanupSweep` | notion/service.go:359-370 | the result is a sub-map of the list with unchanged times; it holds every entry still in its window and no expired one |
| `IgnoreList.CleanupTick` | notion/service.go:361-368 | the delete-while-iterating loop leaves exactly the swept list |
| `IgnoreList.SameNormalFormSameAnswer` | notion/service.go:323-329 | two ids with equal normal forms always get the same answer |
| `IgnoreList.IgnorePreservesWellFormed` | notion/service.go:336-345 | recording a failure keeps every key a normal form that matches no known database |
| `IgnoreList.KnownNeverIgnored` | notion/service.go:337-342 | in a well-formed list, a known database is never reported ignored |
| `IgnoreList.IgnoredForWholeWindow` | notion/service.go:315-346 | after a failure of an unknown database is recorded at t, every spelling of it is ignored exactly while now < t + 5 minutes |
| `IgnoreList.SweepPreservesWellFormed` | notion/service.go:359-370 | a sweep keeps the list well formed |
| `IgnoreList.SweepUnobservable` | notion/service.go:359-370 | a sweep at now changes no answer of IsDatabaseIgnored at now or later |
| `IgnoreList.SweepSurvivorsIgnored` | notion/service.go:359-370 | every key that survives a sweep of a well-formed list is reported ignored at the sweep's time |
| `IgnoreList.SweepIdempotent` | notion/service.go:359-370 | a second sweep at the same time changes nothing; a sweep followed by a later one equals the later one alone |
| `IgnoreList.ExpiredEntryRemoved` | notion/service.go:361-367 | an entry with t + 5 minutes <= now is absent after a sweep at now |
| `Pagination.FetchStopsAtFirstFinalResponse` | notion/service.go:158-181 | the first answer that does not ask for more decides the fetch: a final page gives the records of all pages up to it, in order; an error gives that error; a missing page gives no records |
| `Pagination.FetchUnanswered` | notion/service.go:158-181 | if every answer asks for another page, the fetch never reaches a final answer; the model reports this as its own `Unanswered` error |
| `Pagination.LaterResponsesUnread` | notion/service.go:176-180 | answers after the first final one are never consulted |
| `Pagination.TwoPagesConcatenate` | notion/service.go:173-180 | pages [A,B] with a cursor, then [C] with none, give the records of A, B, C in that order |
| `Pagination.FetchPages` | notion/service.go:155-181 | for any page processor, the loop's own exits (an error aborts with that error, a missing page gives no records, a page without a cursor adds its records and stops) agree with the recursive pagination; its request trace starts with an empty cursor and page size 100, each later request carries the previous page's cursor, and the loop stops at the first answer without a cursor |
| `Pagination.QueryDatabasePages` | notion/service.go:155-181 | the loop's result equals the paginated fetch; the first request has an empty cursor and page size 100; each later request carries the previous page's cursor and follows only a page that had one; the loop stops at the first answer without a cursor |
| `NotionService.Init` | notion/service.go:46-62 | a new service caches nothing, ignores nothing and is well formed |
| `NotionService.QueryDatabase` | notion/service.go:150-192 | the result is the paginated fetch; the id's cache entry is set to it only if caching was requested and the fetch succeeded with records; otherwise the state is unchanged; other keys and the ignore list never change |
| `NotionService.QueryDatabaseCached` | notion/service.go:117-148 | a hit returns the cached list with no fetch and no change; an ignored miss errs with no fetch and no change; otherwise it fetches; a failed fetch errs, leaves the cache alone and records the failure; a successful fetch returns its records and upserts as QueryDatabase does; validity is preserved |
| `NotionService.Cleanup` | notion/service.go:353-373 | a cleanup tick replaces the ignore list with its sweep at now: unexpired entries are kept with their times, expired ones go; the cache and known databases are unchanged and validity is preserved |
| `NotionService.ListDatabases` | notion/service.go:104-115 | returns every cached id exactly once and nothing else |
| `NotionService.Update` | notion/service.go:68-92 | an empty cache is left unchanged; otherwise the new cache holds exactly the old keys whose fetch succeeded, each with its fresh records; the ignore list is never modified |
| `NotionService.UnfetchedIndependentOfRemote` | notion/service.go:117-133 | when a read does not fetch, nothing the remote answers can change it |
| `NotionService.SuppressedAfterFailure` | notion/service.go:126-145 | after a failed on-demand fetch of an unknown database, any spelling of it is refused as ignored, with no fetch, until the window ends, even if the cleanup loop ran meanwhile |
| `NotionService.RetriedAfterWindow` | notion/service.go:126-145 | once the window has ended, the next read of that database fetches again |
| `NotionService.KnownDatabaseAlwaysRetried` | notion/service.go:337-342 | a failed fetch of a known database leaves the state unchanged, and the next read fetches again |
| `NotionService.FetchedThenServedFromCache` | notion/service.go:117-123 | after a successful fetch with records, every later read is served from the cache with no fetch |
| `NotionService.CleanupUnobservable` | notion/service.go:353-373 | a cleanup tick changes neither the result of any later read nor its decision to fetch |
| `NotionService.BypassCachesAllPages` | notion/service.go:175-187 | a cache-bypassing read of pages [A,B] then [C] caches exactly A, B, C in order, leaving other keys alone |

## Left out

- Locks and goroutines (`mu`, `ignoreDatabasesMutex`, `wipMutex`) are concurrency. Each operation is one atomic step here. The second, unlocked read of the cache inside the fetch lock (`notion/service.go:135-138`) can only hit when another goroutine filled the cache in between, so it never fires in a sequential model and is omitted.
- `Start`, `Stop`, `util.Schedule` and the tickers are timers and goroutines. `Init` is the state after start. The immediate refresh at start runs on an empty cache, so by `Update`'s contract it changes nothing.
- The `lastUpdated` field of the service is written at start and never read, so it is left out.
- The Notion client is a foreign network call: its construction, token and context. The remote is the script parameter. A request made after the script has run out gets the model-only error `Unanswered`. The model then treats it as a failed fetch: an on-demand read puts the id on the ignore list, and a refresh drops the key. The source never does this. A hung request there would block the loop forever instead: it would keep the fetch lock and never reach `notion/service.go:143`, or it would stop `update` before `notion/service.go:88`.
- The `ignoredDatabases == nil` test (`notion/service.go:319-321`) is left out. The constructor always creates the map, and a nil map reads as empty anyway.
- `QueryDatabaseCached` takes one `now` for both the ignore check and the recorded failure time. The code reads the clock twice, with the fetch in between.
- `CleanupSweep` and `CleanupTick` use one `now` for a whole tick. The code calls `time.Now()` again for every entry (`notion/service.go:362`). So the code can also delete an entry whose window ends while the sweep is running; the model keeps that entry until the next tick.
- Number formatting with `%.5f` is floating point. Date `String()` and Unix-seconds rendering are library formatting. All three are the uninterpreted functions carried in `Renderers`.
- A date property whose date object is absent is not modelled. The model's `Date` always carries optional start and end values.
- Logging, and everything in `main.go` (HTTP routing and handlers, JSON encoding, signals), `config.go` (configuration loading) and `util/query.go` (HTTP query helpers), is outside the core.

=== FILE: identifiers.dfy ===
/** The separator-stripping applied to identifiers: item ids lose their
    hyphens, and the ignore list keys databases by the id with every space
    and hyphen removed. */
module Identifiers {

  /** `s` with every occurrence of `c` removed and every other character kept,
      in order (Go's `strings.ReplaceAll(s, c, "")`). */
  function Strip(s: string, c: char): (r: string)
    ensures c !in r
    ensures |r| <= |s|
    ensures forall d :: d != c ==> multiset(r)[d] == multiset(s)[d]
    decreases |s|
  {
    if s == [] then []
    else
      assert s == [s[0]] + s[1..];
      if s[0] == c then Strip(s[1..], c) else [s[0]] + Strip(s[1..], c)
  }

  /** Stripping distributes over concatenation: it removes characters where
      they stand and never reorders the rest. */
  lemma {:induction false} StripAppend(a: string, b: string, c: char)
    ensures Strip(a + b, c) == Strip(a, c) + Strip(b, c)
    decreases |a|
  {
    if a == [] {
      assert a + b == b;
    } else {
      assert (a + b)[0] == a[0];
      assert (a + b)[1..] == a[1..] + b;
      StripAppend(a[1..], b, c);
    }
  }

  /** Stripping leaves a string alone exactly when it has nothing to strip. */
  lemma {:induction false} StripFixpoint(s: string, c: char)
    ensures Strip(s, c) == s <==> c !in s
    decreases |s|
  {
    if s != [] && c !in s {
      assert c !in s[1..];
      StripFixpoint(s[1..], c);
    }
  }

  /** The form under which the ignore list compares database ids: every
      space and then every hyphen removed; case is kept. */
  function NormalizedNotionId(id: string): (r: string)
    ensures ' ' !in r && '-' !in r
    ensures |r| <= |id|
    ensures forall d :: d != ' ' && d != '-' ==> multiset(r)[d] == multiset(id)[d]
  {
    var noSpaces := Strip(id, ' ');
    assert multiset(noSpaces)[' '] == 0;
    Strip(noSpaces, '-')
  }

  /** Normalisation keeps the order of the surviving characters: the form of a
      concatenation is the concatenation of the forms. */
  lemma NormalizedAppend(a: string, b: string)
    ensures NormalizedNotionId(a + b) == NormalizedNotionId(a) + NormalizedNotionId(b)
  {
    StripAppend(a, b, ' ');
    StripAppend(Strip(a, ' '), Strip(b, ' '), '-');
  }

  /** An id is its own normal form exactly when it holds no space and no hyphen. */
  lemma NormalizedFixpoint(s: string)
    ensures NormalizedNotionId(s) == s <==> ' ' !in s && '-' !in s
  {
    if ' ' !in s && '-' !in s {
      StripFixpoint(s, ' ');
      StripFixpoint(s, '-');
    }
  }

  /** Normalising twice gives the same id as normalising once. */
  lemma NormalizedIdempotent(id: string)
    ensures NormalizedNotionId(NormalizedNotionId(id)) == NormalizedNotionId(id)
  {
    NormalizedFixpoint(NormalizedNotionId(id));
  }

  /** A separator inserted anywhere does not change the normal form, so
      "abc-123", "abc 123" and "abc123" all denote the same ignore-list key. */
  lemma SeparatorInsensitive(a: string, b: string, sep: char)
    requires sep == ' ' || sep == '-'
    ensures NormalizedNotionId(a + [sep] + b) == NormalizedNotionId(a + b)
  {
    NormalizedAppend(a + [sep], b);
    NormalizedAppend(a, [sep]);
    NormalizedAppend(a, b);
    NormalizedFixpoint([sep]);
    assert NormalizedNotionId([sep]) == [];
  }
}

=== FILE: ignore_list.dfy ===
/** The ignore list: normalised database ids mapped to the time of their last
    failed on-demand fetch, with a fixed suppression window and a periodic
    sweep of expired entries. */
module IgnoreList {
  import opened Identifiers
  import opened Time

  /** How long a failing database is suppressed (`IgnoreDatabaseDuration`). */
  const IgnoreDatabaseDuration: int := 5 * Minute

  type IgnoreMap = map<string, Instant>

  /** An entry recorded at `failedAt` still suppresses at `now`: the end of
      its window is strictly after `now`. */
  predicate Active(failedAt: Instant, now: Instant)
  {
    failedAt + IgnoreDatabaseDuration > now
  }

  /** Whether the id is currently suppressed: its normal form has an entry
      whose window has not yet elapsed. */
  function IsDatabaseIgnored(ignored: IgnoreMap, id: string, now: Instant): (r: bool)
    ensures r <==> NormalizedNotionId(id) in ignored && now < ignored[NormalizedNotionId(id)] + IgnoreDatabaseDuration
  {
    var key := NormalizedNotionId(id);
    key in ignored && Active(ignored[key], now)
  }

  /** Whether some configured known database has the given normal form. */
  function IsKnownDatabase(known: seq<string>, normalizedId: string): (r: bool)
    ensures r <==> exists i :: 0 <= i < |known| && NormalizedNotionId(known[i]) == normalizedId
    decreases |known|
  {
    if known == [] then false
    else if NormalizedNotionId(known[0]) == normalizedId then true
    else
      var rest := IsKnownDatabase(known[1..], normalizedId);
      assert forall i :: 1 <= i < |known| ==> known[i] == known[1..][i - 1];
      rest
  }

  /** Records a failure of `id` at `now`, unless its normal form is that of
      a known database. */
  function IgnoreNotionDatabase(ignored: IgnoreMap, known: seq<string>, id: string, now: Instant): (r: IgnoreMap)
    ensures IsKnownDatabase(known, NormalizedNotionId(id)) ==> r == ignored
    ensures !IsKnownDatabase(known, NormalizedNotionId(id)) ==>
              NormalizedNotionId(id) in r && r[NormalizedNotionId(id)] == now
    ensures r.Keys <= ignored.Keys + {NormalizedNotionId(id)}
    ensures forall key :: key in ignored && key != NormalizedNotionId(id) ==> key in r && r[key] == ignored[key]
  {
    var key := NormalizedNotionId(id);
    if IsKnownDatabase(known, key) then ignored else ignored[key := now]
  }

  /** What the cleanup loop leaves after one tick at `now`. */
  function CleanupSweep(ignored: IgnoreMap, now: Instant): (r: IgnoreMap)
    ensures forall key :: key in r ==> key in ignored && r[key] == ignored[key]
    ensures forall key :: key in r ==> Active(r[key], now)
    ensures forall key :: key in ignored && Active(ignored[key], now) ==> key in r
  {
    map key | key in ignored && Active(ignored[key], now) :: ignored[key]
  }

  /** The cleanup tick as the loop performs it: visit every entry once and
      delete the ones whose window has elapsed. */
  method CleanupTick(ignored: IgnoreMap, now: Instant) returns (kept: IgnoreMap)
    ensures kept == CleanupSweep(ignored, now)
  {
    kept := ignored;
    var pending := ignored.Keys;
    while pending != {}
      invariant pending <= ignored.Keys
      invariant forall key :: key in kept <==> key in ignored && (key in pending || Active(ignored[key], now))
      invariant forall key :: key in kept ==> kept[key] == ignored[key]
      decreases pending
    {
      var key :| key in pending;
      if !Active(ignored[key], now) {
        kept := kept - {key};
      }
      pending := pending - {key};
    }
  }

  /** The invariant every reachable ignore list keeps: each key is already a
      normal form, and none is the normal form of a known database. */
  predicate WellFormed(ignored: IgnoreMap, known: seq<string>)
  {
    forall key :: key in ignored ==> NormalizedNotionId(key) == key && !IsKnownDatabase(known, key)
  }

  /** Ids with equal normal forms always get the same answer. */
  lemma SameNormalFormSameAnswer(ignored: IgnoreMap, a: string, b: string, now: Instant)
    requires NormalizedNotionId(a) == NormalizedNotionId(b)
    ensures IsDatabaseIgnored(ignored, a, now) == IsDatabaseIgnored(ignored, b, now)
  {
  }

  /** Recording a failure keeps the list well formed. */
  lemma IgnorePreservesWellFormed(ignored: IgnoreMap, known: seq<string>, id: string, now: Instant)
    ensures WellFormed(ignored, known) ==> WellFormed(IgnoreNotionDatabase(ignored, known, id, now), known)
  {
    NormalizedIdempotent(id);
  }

  /** A known database is never reported ignored. */
  lemma KnownNeverIgnored(ignored: IgnoreMap, known: seq<string>, id: string, now: Instant)
    requires WellFormed(ignored, known)
    requires IsKnownDatabase(known, NormalizedNotionId(id))
    ensures !IsDatabaseIgnored(ignored, id, now)
  {
  }

  /** After a failure of an unknown database is recorded at `failedAt`, every
      id with the same normal form is ignored exactly until the window ends. */
  lemma IgnoredForWholeWindow(ignored: IgnoreMap, known: seq<string>, id: string, alias: string, failedAt: Instant, now: Instant)
    requires !IsKnownDatabase(known, NormalizedNotionId(id))
    requires NormalizedNotionId(alias) == NormalizedNotionId(id)
    ensures IsDatabaseIgnored(IgnoreNotionDatabase(ignored, known, id, failedAt), alias, now)
            <==> now < failedAt + IgnoreDatabaseDuration
  {
  }

  /** A sweep at `now` cannot be observed by any later question: every id
      gets the same answer with or without it, at `now` and afterwards. */
  lemma SweepUnobservable(ignored: IgnoreMap, id: string, now: Instant, later: Instant)
    requires now <= later
    ensures IsDatabaseIgnored(CleanupSweep(ignored, now), id, later) == IsDatabaseIgnored(ignored, id, later)
  {
  }

  /** A sweep keeps the list well formed. */
  lemma SweepPreservesWellFormed(ignored: IgnoreMap, known: seq<string>, now: Instant)
    ensures WellFormed(ignored, known) ==> WellFormed(CleanupSweep(ignored, now), known)
  {
  }

  /** In a well-formed list, every key that survives a sweep is reported
      ignored at the time of the sweep. */
  lemma SweepSurvivorsIgnored(ignored: IgnoreMap, known: seq<string>, now: Instant)
    requires WellFormed(ignored, known)
    ensures forall key :: key in CleanupSweep(ignored, now) ==> IsDatabaseIgnored(CleanupSweep(ignored, now), key, now)
  {
  }

  /** A second sweep at the same time, or a sweep at a later time, removes
      nothing the later sweep alone would keep. */
  lemma SweepIdempotent(ignored: IgnoreMap, now: Instant, later: Instant)
    requires now <= later
    ensures CleanupSweep(CleanupSweep(ignored, now), now) == CleanupSweep(ignored, now)
    ensures CleanupSweep(CleanupSweep(ignored, now), later) == CleanupSweep(ignored, later)
  {
  }

  /** An entry whose window has ended by `now` is gone after a sweep at `now`. */
  lemma ExpiredEntryRemoved(ignored: IgnoreMap, key: string, now: Instant)
    requires key in ignored && ignored[key] + IgnoreDatabaseDuration <= now
    ensures key !in CleanupSweep(ignored, now)
  {
  }
}

=== FILE: notion_service.dfy ===
/** The caching service: a cache of normalised records per database, the
    ignore list of failing databases, and the operations that read and
    rebuild them. Each operation is one atomic transition of a `Service`
    value; time is the `now` argument, and the remote source is the script
    of answers it gives to successive page requests. */
module NotionService {
  import opened Wrappers
  import opened Identifiers
  import opened Time
  import opened Records
  import opened IgnoreList
  import opened Pagination

  /** A database id in the caller's own spelling. */
  type DatabaseId = string

  datatype Service = Service(
    knownDatabases: seq<DatabaseId>,
    databaseMap: map<DatabaseId, seq<DataItem>>,
    ignoredDatabases: IgnoreMap)

  /** Why a cached query failed. */
  datatype QueryError =
    | DatabaseIgnored(id: DatabaseId)
    | FetchFailed(id: DatabaseId, cause: FetchError)

  /** What an operation returns, the state it leaves, and whether it asked the
      remote source for anything. */
  datatype Answer<+E> = Answer(result: Result<seq<DataItem>, E>, after: Service, fetched: bool)

  /** The invariant every reachable state keeps. */
  predicate Valid(svc: Service)
  {
    WellFormed(svc.ignoredDatabases, svc.knownDatabases)
  }

  /** A freshly constructed and started service: nothing cached, nothing
      ignored. */
  function Init(known: seq<DatabaseId>): (svc: Service)
    ensures Valid(svc)
    ensures svc.knownDatabases == known
    ensures forall id :: id !in svc.databaseMap
    ensures forall id, now :: !IsDatabaseIgnored(svc.ignoredDatabases, id, now)
  {
    Service(known, map[], map[])
  }

  /** The raw paginated fetch, storing its records under `id` only when asked
      to, and only when the fetch succeeded with at least one record. */
  function QueryDatabase(svc: Service, id: DatabaseId, updateMapIfSuccess: bool,
                         script: seq<PageResponse>, render: Renderers): (a: Answer<FetchError>)
    ensures a.fetched && a.result == FetchAll(script, render)
    ensures a.after.knownDatabases == svc.knownDatabases
    ensures a.after.ignoredDatabases == svc.ignoredDatabases
    ensures forall k :: k != id ==> (k in a.after.databaseMap <==> k in svc.databaseMap)
    ensures forall k :: k != id && k in svc.databaseMap ==> a.after.databaseMap[k] == svc.databaseMap[k]
    ensures updateMapIfSuccess && a.result.Ok? && |a.result.value| > 0 ==>
              id in a.after.databaseMap && a.after.databaseMap[id] == a.result.value
    ensures !(updateMapIfSuccess && a.result.Ok? && |a.result.value| > 0) ==> a.after == svc
  {
    var fetched := FetchAll(script, render);
    if updateMapIfSuccess && fetched.Ok? && |fetched.value| > 0 then
      Answer(fetched, svc.(databaseMap := svc.databaseMap[id := fetched.value]), true)
    else
      Answer(fetched, svc, true)
  }

  /** A read through the cache: a cached database is served as is; otherwise
      an ignored database is refused without a fetch; otherwise the database
      is fetched, cached on success, and ignored on failure. */
  function QueryDatabaseCached(svc: Service, id: DatabaseId, now: Instant,
                               script: seq<PageResponse>, render: Renderers): (a: Answer<QueryError>)
    ensures a.after.knownDatabases == svc.knownDatabases
    ensures Valid(svc) ==> Valid(a.after)
    ensures id in svc.databaseMap ==> a == Answer(Ok(svc.databaseMap[id]), svc, false)
    ensures id !in svc.databaseMap && IsDatabaseIgnored(svc.ignoredDatabases, id, now) ==>
              a == Answer(Err(DatabaseIgnored(id)), svc, false)
    ensures a.fetched <==> id !in svc.databaseMap && !IsDatabaseIgnored(svc.ignoredDatabases, id, now)
    ensures a.fetched && FetchAll(script, render).Err? ==>
              && a.result == Err(FetchFailed(id, FetchAll(script, render).error))
              && a.after.databaseMap == svc.databaseMap
              && a.after.ignoredDatabases == IgnoreNotionDatabase(svc.ignoredDatabases, svc.knownDatabases, id, now)
    ensures a.fetched && FetchAll(script, render).Ok? ==>
              && a.result == Ok(FetchAll(script, render).value)
              && a.after.ignoredDatabases == svc.ignoredDatabases
              && a.after == QueryDatabase(svc, id, true, script, render).after
  {
    if id in svc.databaseMap then
      Answer(Ok(svc.databaseMap[id]), svc, false)
    else if IsDatabaseIgnored(svc.ignoredDatabases, id, now) then
      Answer(Err(DatabaseIgnored(id)), svc, false)
    else
      var fetch := QueryDatabase(svc, id, true, script, render);
      match fetch.result
      case Err(cause) =>
        IgnorePreservesWellFormed(svc.ignoredDatabases, svc.knownDatabases, id, now);
        var ignored := IgnoreNotionDatabase(svc.ignoredDatabases, svc.knownDatabases, id, now);
        Answer(Err(FetchFailed(id, cause)), svc.(ignoredDatabases := ignored), true)
      case Ok(items) =>
        Answer(Ok(items), fetch.after, true)
  }

  /** One tick of the cleanup loop. */
  function Cleanup(svc: Service, now: Instant): (r: Service)
    ensures r.knownDatabases == svc.knownDatabases && r.databaseMap == svc.databaseMap
    ensures r.ignoredDatabases == CleanupSweep(svc.ignoredDatabases, now)
    ensures Valid(svc) ==> Valid(r)
  {
    SweepPreservesWellFormed(svc.ignoredDatabases, svc.knownDatabases, now);
    svc.(ignoredDatabases := CleanupSweep(svc.ignoredDatabases, now))
  }

  /** The ids of all cached databases, each once, in no particular order. */
  method ListDatabases(svc: Service) returns (ids: seq<DatabaseId>)
    ensures forall id :: id in ids <==> id in svc.databaseMap
    ensures forall i, j :: 0 <= i < j < |ids| ==> ids[i] != ids[j]
    ensures |ids| == |svc.databaseMap|
  {
    ids := [];
    var pending := svc.databaseMap.Keys;
    while pending != {}
      invariant pending <= svc.databaseMap.Keys
      invariant forall id :: id in ids <==> id in svc.databaseMap && id !in pending
      invariant forall i, j :: 0 <= i < j < |ids| ==> ids[i] != ids[j]
      invariant |ids| + |pending| == |svc.databaseMap.Keys|
      decreases pending
    {
      var id :| id in pending;
      ids := ids + [id];
      pending := pending - {id};
    }
  }

  /** One refresh cycle: every cached database is fetched again, and the
      cache is replaced by the successful fetches alone. An empty cache is
      left as it is. `remote(id)` is what the remote answers for `id`. Each
      fetch is the service's own `QueryDatabase` without caching, which
      leaves the state alone, so the loop runs the page loop directly. */
  method Update(svc: Service, remote: DatabaseId -> seq<PageResponse>, render: Renderers) returns (next: Service)
    ensures next.knownDatabases == svc.knownDatabases
    ensures next.ignoredDatabases == svc.ignoredDatabases
    ensures |svc.databaseMap| == 0 ==> next == svc
    ensures forall id :: id in next.databaseMap <==> id in svc.databaseMap && FetchAll(remote(id), render).Ok?
    ensures forall id :: id in next.databaseMap ==> next.databaseMap[id] == FetchAll(remote(id), render).value
  {
    var dbs := ListDatabases(svc);
    if |dbs| == 0 {
      return svc;
    }
    var res: map<DatabaseId, seq<DataItem>> := map[];
    for i := 0 to |dbs|
      invariant forall id :: id in res <==> id in dbs[..i] && FetchAll(remote(id), render).Ok?
      invariant forall id :: id in res ==> res[id] == FetchAll(remote(id), render).value
    {
      var id := dbs[i];
      var fetched, _ := QueryDatabasePages(remote(id), render);
      assert QueryDatabase(svc, id, false, remote(id), render) == Answer(fetched, svc, true);
      if fetched.Ok? {
        res := res[id := fetched.value];
      }
      assert dbs[..i + 1] == dbs[..i] + [id];
    }
    assert dbs[..|dbs|] == dbs;
    next := svc.(databaseMap := res);
  }

  /** When a query does not fetch, the remote's answers cannot influence it. */
  lemma UnfetchedIndependentOfRemote(svc: Service, id: DatabaseId, now: Instant,
                                     script: seq<PageResponse>, other: seq<PageResponse>, render: Renderers)
    requires !QueryDatabaseCached(svc, id, now, script, render).fetched
    ensures QueryDatabaseCached(svc, id, now, other, render) == QueryDatabaseCached(svc, id, now, script, render)
  {
  }

  /** After an on-demand fetch of an unknown database fails at `failedAt`, any
      spelling of the same database is refused without a fetch until the
      window ends, whether or not the cleanup loop ran in between. */
  lemma SuppressedAfterFailure(svc: Service, id: DatabaseId, alias: DatabaseId, failedAt: Instant, sweptAt: Instant,
                               now: Instant, script: seq<PageResponse>, retry: seq<PageResponse>, render: Renderers)
    requires id !in svc.databaseMap && alias !in svc.databaseMap
    requires !IsDatabaseIgnored(svc.ignoredDatabases, id, failedAt)
    requires !IsKnownDatabase(svc.knownDatabases, NormalizedNotionId(id))
    requires NormalizedNotionId(alias) == NormalizedNotionId(id)
    requires FetchAll(script, render).Err?
    requires failedAt <= sweptAt <= now < failedAt + IgnoreDatabaseDuration
    ensures var first := QueryDatabaseCached(svc, id, failedAt, script, render);
            && first.fetched && first.result.Err? && first.result.error.FetchFailed?
            && QueryDatabaseCached(first.after, alias, now, retry, render) == Answer(Err(DatabaseIgnored(alias)), first.after, false)
            && !QueryDatabaseCached(Cleanup(first.after, sweptAt), alias, now, retry, render).fetched
  {
    var first := QueryDatabaseCached(svc, id, failedAt, script, render);
    IgnoredForWholeWindow(svc.ignoredDatabases, svc.knownDatabases, id, alias, failedAt, now);
    SweepUnobservable(first.after.ignoredDatabases, alias, sweptAt, now);
  }

  /** Once the window has ended, the same database is fetched again. */
  lemma RetriedAfterWindow(svc: Service, id: DatabaseId, alias: DatabaseId, failedAt: Instant, now: Instant,
                           script: seq<PageResponse>, retry: seq<PageResponse>, render: Renderers)
    requires id !in svc.databaseMap && alias !in svc.databaseMap
    requires !IsDatabaseIgnored(svc.ignoredDatabases, id, failedAt)
    requires NormalizedNotionId(alias) == NormalizedNotionId(id)
    requires FetchAll(script, render).Err?
    requires failedAt + IgnoreDatabaseDuration <= now
    ensures var first := QueryDatabaseCached(svc, id, failedAt, script, render);
            QueryDatabaseCached(first.after, alias, now, retry, render).fetched
  {
    var first := QueryDatabaseCached(svc, id, failedAt, script, render);
    var key := NormalizedNotionId(id);
    if IsKnownDatabase(svc.knownDatabases, key) {
      assert first.after.ignoredDatabases == svc.ignoredDatabases;
    } else {
      assert first.after.ignoredDatabases[key] == failedAt;
    }
  }

  /** A known database is never suppressed: a failed fetch leaves the whole
      state as it was, and every later read of it fetches again. */
  lemma KnownDatabaseAlwaysRetried(svc: Service, id: DatabaseId, alias: DatabaseId, failedAt: Instant, now: Instant,
                                   script: seq<PageResponse>, retry: seq<PageResponse>, render: Renderers)
    requires Valid(svc)
    requires IsKnownDatabase(svc.knownDatabases, NormalizedNotionId(id))
    requires id !in svc.databaseMap && alias !in svc.databaseMap
    requires NormalizedNotionId(alias) == NormalizedNotionId(id)
    requires FetchAll(script, render).Err?
    ensures var first := QueryDatabaseCached(svc, id, failedAt, script, render);
            && first.fetched && first.after == svc
            && QueryDatabaseCached(first.after, alias, now, retry, render).fetched
  {
    KnownNeverIgnored(svc.ignoredDatabases, svc.knownDatabases, id, failedAt);
    KnownNeverIgnored(svc.ignoredDatabases, svc.knownDatabases, alias, now);
  }

  /** A successful on-demand fetch with records is served from the cache by
      every later read, whatever the remote then answers. */
  lemma FetchedThenServedFromCache(svc: Service, id: DatabaseId, now: Instant, later: Instant,
                                   script: seq<PageResponse>, retry: seq<PageResponse>, render: Renderers)
    requires QueryDatabaseCached(svc, id, now, script, render).fetched
    requires FetchAll(script, render).Ok? && |FetchAll(script, render).value| > 0
    ensures var first := QueryDatabaseCached(svc, id, now, script, render);
            QueryDatabaseCached(first.after, id, later, retry, render)
              == Answer(Ok(FetchAll(script, render).value), first.after, false)
  {
  }

  /** A cleanup tick changes no answer and no decision to fetch, at its own
      time or later. */
  lemma CleanupUnobservable(svc: Service, id: DatabaseId, now: Instant, later: Instant,
                            script: seq<PageResponse>, render: Renderers)
    requires now <= later
    ensures QueryDatabaseCached(Cleanup(svc, now), id, later, script, render).result
            == QueryDatabaseCached(svc, id, later, script, render).result
    ensures QueryDatabaseCached(Cleanup(svc, now), id, later, script, render).fetched
            == QueryDatabaseCached(svc, id, later, script, render).fetched
  {
    SweepUnobservable(svc.ignoredDatabases, id, now, later);
  }

  /** A cache-bypassing read of a database answering [A, B] with a cursor and
      then [C] without one caches exactly the records of A, B and C, in order. */
  lemma BypassCachesAllPages(svc: Service, id: DatabaseId, first: seq<RemotePage>, second: seq<RemotePage>,
                             cursor: Cursor, render: Renderers)
    requires cursor != ""
    requires |first| + |second| > 0
    ensures var a := QueryDatabase(svc, id, true, [Page(first, cursor), Page(second, "")], render);
            a.after.databaseMap == svc.databaseMap[id := ProcessPageProperties(first + second, render)]
  {
    TwoPagesConcatenate(first, second, cursor, render);
  }
}

=== FILE: pagination.dfy ===
/** The paginated fetch of one database: pages are requested with the
    previous page's cursor until a page reports no further cursor, and any
    failed page aborts the whole fetch. */
module Pagination {
  import opened Wrappers
  import opened Records

  type Cursor = string

  /** Records asked for per request. */
  const PageSize: nat := 100

  datatype QueryRequest = QueryRequest(startCursor: Cursor, pageSize: nat)

  /** One answer of the remote source: a page of records with the cursor of
      the next page ("" when there is none), a call that succeeded without a
      page, or a failed call. */
  datatype PageResponse =
    | Page(results: seq<RemotePage>, nextCursor: Cursor)
    | NoPage
    | ApiError(message: string)

  /** Why a fetch failed: the remote reported an error, or it gave no answer
      to a request (the script of answers ran out). */
  datatype FetchError = ApiFailure(message: string) | Unanswered

  /** How the records of one page are turned into items. The loop is stated
      for any such function; the service uses the record normaliser. */
  type PageProcessor = seq<RemotePage> -> seq<DataItem>

  /** The record normaliser as a page processor. */
  function Normaliser(render: Renderers): PageProcessor
  {
    pages => ProcessPageProperties(pages, render)
  }

  /** A response after which the fetch asks for another page. */
  predicate Continues(resp: PageResponse)
  {
    resp.Page? && resp.nextCursor != ""
  }

  /** The items a response contributes, independently of its cursor. */
  function PageItems(resp: PageResponse, process: PageProcessor): seq<DataItem>
  {
    if resp.Page? then process(resp.results) else []
  }

  /** The fetch loop from some point on, with `acc` the items gathered so
      far. A missing page ends the fetch successfully with no items. */
  function Paginate(script: seq<PageResponse>, acc: seq<DataItem>, process: PageProcessor): Result<seq<DataItem>, FetchError>
    decreases |script|
  {
    if script == [] then Err(Unanswered)
    else
      match script[0]
      case ApiError(message) => Err(ApiFailure(message))
      case NoPage => Ok([])
      case Page(_, next) =>
        var gathered := acc + PageItems(script[0], process);
        if next == "" then Ok(gathered) else Paginate(script[1..], gathered, process)
  }

  /** The outcome of fetching a database whose remote answers the successive
      requests with `script`. */
  function FetchAll(script: seq<PageResponse>, render: Renderers): Result<seq<DataItem>, FetchError>
  {
    Paginate(script, [], Normaliser(render))
  }

  /** The items of all responses, in order. */
  function Collected(script: seq<PageResponse>, process: PageProcessor): seq<DataItem>
    decreases |script|
  {
    if script == [] then [] else PageItems(script[0], process) + Collected(script[1..], process)
  }

  /** One continuing page moves its items into the accumulator. */
  lemma PaginateStep(script: seq<PageResponse>, acc: seq<DataItem>, process: PageProcessor)
    requires script != [] && Continues(script[0])
    ensures Paginate(script, acc, process) == Paginate(script[1..], acc + PageItems(script[0], process), process)
  {
  }

  /** After k continuing answers, the k-th answer decides the fetch. */
  lemma {:induction false} PaginateStops(script: seq<PageResponse>, acc: seq<DataItem>, k: nat, process: PageProcessor)
    requires k < |script|
    requires forall i :: 0 <= i < k ==> Continues(script[i])
    ensures script[k].Page? && script[k].nextCursor == "" ==>
              Paginate(script, acc, process) == Ok(acc + Collected(script[..k + 1], process))
    ensures script[k].ApiError? ==> Paginate(script, acc, process) == Err(ApiFailure(script[k].message))
    ensures script[k].NoPage? ==> Paginate(script, acc, process) == Ok([])
    decreases k
  {
    if k == 0 {
      assert script[..1] == [script[0]];
      var first := PageItems(script[0], process);
      assert Collected(script[..1], process) == first + Collected([], process);
      assert first + [] == first;
    } else {
      var gathered := acc + PageItems(script[0], process);
      PaginateStep(script, acc, process);
      PaginateStops(script[1..], gathered, k - 1, process);
      assert script[1..][..k] == script[..k + 1][1..];
      var rest := Collected(script[1..][..k], process);
      assert Collected(script[..k + 1], process) == PageItems(script[0], process) + rest;
      assert gathered + rest == acc + (PageItems(script[0], process) + rest);
    }
  }

  /** The fetch is decided by the first response that does not continue: a
      final page yields the records of every page up to it, in order; an
      error yields that error; a missing page yields no records. */
  lemma FetchStopsAtFirstFinalResponse(script: seq<PageResponse>, k: nat, render: Renderers)
    requires k < |script|
    requires forall i :: 0 <= i < k ==> Continues(script[i])
    ensures script[k].Page? && script[k].nextCursor == "" ==>
              FetchAll(script, render) == Ok(Collected(script[..k + 1], Normaliser(render)))
    ensures script[k].ApiError? ==> FetchAll(script, render) == Err(ApiFailure(script[k].message))
    ensures script[k].NoPage? ==> FetchAll(script, render) == Ok([])
  {
    var collected := Collected(script[..k + 1], Normaliser(render));
    PaginateStops(script, [], k, Normaliser(render));
    assert [] + collected == collected;
  }

  /** When every answer continues, the script runs out before a final answer. */
  lemma {:induction false} PaginateUnanswered(script: seq<PageResponse>, acc: seq<DataItem>, process: PageProcessor)
    requires forall i :: 0 <= i < |script| ==> Continues(script[i])
    ensures Paginate(script, acc, process) == Err(Unanswered)
    decreases |script|
  {
    if script != [] {
      PaginateStep(script, acc, process);
      PaginateUnanswered(script[1..], acc + PageItems(script[0], process), process);
    }
  }

  /** When every answer asks for more, the fetch never reaches a final
      answer and reports that none came. */
  lemma FetchUnanswered(script: seq<PageResponse>, render: Renderers)
    requires forall i :: 0 <= i < |script| ==> Continues(script[i])
    ensures FetchAll(script, render) == Err(Unanswered)
  {
    PaginateUnanswered(script, [], Normaliser(render));
  }

  /** Answers after the first non-continuing one are never consulted. */
  lemma LaterResponsesUnread(script: seq<PageResponse>, k: nat, rest: seq<PageResponse>, render: Renderers)
    requires k < |script|
    requires forall i :: 0 <= i < k ==> Continues(script[i])
    requires !Continues(script[k])
    ensures FetchAll(script[..k + 1] + rest, render) == FetchAll(script, render)
  {
    var other := script[..k + 1] + rest;
    assert other[..k + 1] == script[..k + 1];
    assert forall i :: 0 <= i <= k ==> other[i] == script[i];
    FetchStopsAtFirstFinalResponse(script, k, render);
    FetchStopsAtFirstFinalResponse(other, k, render);
  }

  /** Pages [A, B] with a cursor, then [C] with none, give the records of A, B
      and C in that order. */
  lemma TwoPagesConcatenate(first: seq<RemotePage>, second: seq<RemotePage>, cursor: Cursor, render: Renderers)
    requires cursor != ""
    ensures FetchAll([Page(first, cursor), Page(second, "")], render)
            == Ok(ProcessPageProperties(first + second, render))
  {
    ProcessAppend(first, second, render);
    var script := [Page(first, cursor), Page(second, "")];
    var a := ProcessPageProperties(first, render);
    assert script[1..] == [Page(second, "")];
    assert [] + a == a;
    assert FetchAll(script, render) == Paginate(script[1..], a, Normaliser(render));
  }

  /** The request the fetch loop sends as its `n`-th one: the first starts
      from the beginning, each later one carries the cursor of the page that
      answered the request before it (the loop never follows an answer
      that is not a page, so the empty cursor there is never sent). */
  function ExpectedRequest(script: seq<PageResponse>, n: nat): QueryRequest
    requires n <= |script|
  {
    if n == 0 || !script[n - 1].Page? then QueryRequest("", PageSize)
    else QueryRequest(script[n - 1].nextCursor, PageSize)
  }

  /** `sent` is a request trace the fetch loop can produce against `script`:
      every request is the expected one, and the loop only went on past pages
      that carried a cursor. */
  predicate RequestsFollow(script: seq<PageResponse>, sent: seq<QueryRequest>)
  {
    && |sent| <= |script| + 1
    && (forall n :: 0 <= n < |sent| ==> sent[n] == ExpectedRequest(script, n))
    && (forall n :: 0 <= n < |sent| - 1 ==> Continues(script[n]))
  }

  /** Sending the next request after a continuing page extends the trace. */
  lemma RequestsExtend(script: seq<PageResponse>, sent: seq<QueryRequest>, cursor: Cursor)
    requires RequestsFollow(script, sent) && |sent| <= |script|
    requires |sent| == 0 ==> cursor == ""
    requires |sent| > 0 ==> Continues(script[|sent| - 1]) && cursor == script[|sent| - 1].nextCursor
    ensures RequestsFollow(script, sent + [QueryRequest(cursor, PageSize)])
  {
    var extended := sent + [QueryRequest(cursor, PageSize)];
    assert forall n :: 0 <= n < |sent| ==> extended[n] == sent[n];
  }

  /** The loop's view of the fetch after one more continuing page. */
  lemma PaginateAdvance(script: seq<PageResponse>, i: nat, acc: seq<DataItem>, process: PageProcessor)
    requires i < |script| && Continues(script[i])
    ensures Paginate(script[i..], acc, process) == Paginate(script[i + 1..], acc + PageItems(script[i], process), process)
  {
    PaginateStep(script[i..], acc, process);
    assert script[i..][1..] == script[i + 1..];
  }

  /** The fetch loop, for any page processor. Besides the outcome it returns
      the requests it sent, the last of which may have gone unanswered. */
  method FetchPages(script: seq<PageResponse>, process: PageProcessor)
    returns (r: Result<seq<DataItem>, FetchError>, sent: seq<QueryRequest>)
    ensures r == Paginate(script, [], process)
    ensures |sent| >= 1 && RequestsFollow(script, sent)
    ensures |sent| <= |script| ==> !Continues(script[|sent| - 1])
    ensures |sent| == |script| + 1 ==> r == Err(Unanswered)
  {
    var result: seq<DataItem> := [];
    var cursor: Cursor := "";
    var i := 0;
    sent := [];
    while true
      invariant 0 <= i <= |script|
      invariant |sent| == i
      invariant forall j :: 0 <= j < i ==> Continues(script[j])
      invariant RequestsFollow(script, sent)
      invariant cursor == if i == 0 then "" else script[i - 1].nextCursor
      invariant Paginate(script[i..], result, process) == Paginate(script, [], process)
      decreases |script| - i
    {
      RequestsExtend(script, sent, cursor);
      sent := sent + [QueryRequest(cursor, PageSize)];
      if i == |script| {
        assert script[i..] == [];
        r := Err(Unanswered);
        return;
      }
      match script[i]
      case ApiError(message) =>
        r := Err(ApiFailure(message));
        return;
      case NoPage =>
        r := Ok([]);
        return;
      case Page(results, next) =>
        if next == "" {
          r := Ok(result + process(results));
          return;
        }
        PaginateAdvance(script, i, result, process);
        result := result + process(results);
        cursor := next;
        i := i + 1;
    }
  }

  /** The fetch loop of the service: each page's records go through the
      record normaliser. */
  method QueryDatabasePages(script: seq<PageResponse>, render: Renderers)
    returns (r: Result<seq<DataItem>, FetchError>, sent: seq<QueryRequest>)
    ensures r == FetchAll(script, render)
    ensures |sent| >= 1 && RequestsFollow(script, sent)
    ensures |sent| <= |script| ==> !Continues(script[|sent| - 1])
    ensures |sent| == |script| + 1 ==> r == Err(Unanswered)
  {
    r, sent := FetchPages(script, Normaliser(render));
  }
}

=== FILE: records.dfy ===
/** The record normaliser: a remote page becomes a `DataItem` whose
    properties are flattened to lists of printable strings. */
module Records {
  import opened Wrappers
  import Identifiers
  import opened Time

  /** The typed payload of one remote property, one variant per kind the
      normaliser recognises; `Other` stands for every remaining kind
      (relation, rollup, files, ...). Rich-text payloads are given by the
      plain text of each segment, people and options by their names. A
      formula is given only by the string field of its result; numeric,
      boolean and date formula results are not carried, since the
      normaliser emits that string field whatever the formula's type. */
  datatype PropertyValue =
    | Title(segments: seq<string>)
    | RichText(segments: seq<string>)
    | Text(segments: seq<string>)
    | Date(start: Option<Instant>, end: Option<Instant>)
    | Select(option: string)
    | MultiSelect(options: seq<string>)
    | Url(url: string)
    | Checkbox(checked: bool)
    | Email(email: string)
    | PhoneNumber(phone: string)
    | Formula(text: string)
    | Number(number: real)
    | CreatedTime(created: Instant)
    | LastEditedTime(edited: Instant)
    | CreatedBy(creator: string)
    | LastEditedBy(editor: string)
    | People(people: seq<string>)
    | Other(kind: string)

  /** One named property of a page, in the order the page's property map was
      enumerated. */
  datatype RemoteProperty = RemoteProperty(name: string, value: PropertyValue)

  /** One record as the remote source returns it. */
  datatype RemotePage = RemotePage(id: string, lastEdited: Instant, properties: seq<RemoteProperty>)

  datatype DataProperty = DataProperty(name: string, values: seq<string>)

  /** A normalised record, as cached and served. */
  datatype DataItem = DataItem(id: string, properties: seq<DataProperty>, lastUpdated: Instant)

  /** The library formatting the normaliser relies on, left uninterpreted:
      a number printed with five decimals, a date printed by its `String`
      method, and an instant printed as decimal Unix seconds. */
  datatype Renderers = Renderers(number: real -> string, date: Instant -> string, unixSeconds: Instant -> string)

  /** Kinds that always yield exactly one value. */
  predicate SingleValued(v: PropertyValue)
  {
    v.Title? || v.Select? || v.Url? || v.Checkbox? || v.Email? || v.PhoneNumber? || v.Formula?
    || v.Number? || v.CreatedTime? || v.LastEditedTime? || v.CreatedBy? || v.LastEditedBy?
  }

  /** Kinds that yield one value per element of their payload. */
  predicate ListValued(v: PropertyValue)
  {
    v.RichText? || v.Text? || v.MultiSelect? || v.People?
  }

  /** The elements a list-valued kind carries. */
  function Elements(v: PropertyValue): seq<string>
    requires ListValued(v)
  {
    match v
    case RichText(segments) => segments
    case Text(segments) => segments
    case MultiSelect(options) => options
    case People(people) => people
  }

  /** The parts glued together with no separator (`strings.Join(parts, "")`). */
  function Join(parts: seq<string>): string
  {
    if parts == [] then "" else parts[0] + Join(parts[1..])
  }

  function Present(d: Option<Instant>): nat
  {
    if d.Some? then 1 else 0
  }

  /** The printable values of one property. The first clause summarises
      the per-kind clauses for the single-valued kinds. */
  function PropertyValues(v: PropertyValue, render: Renderers): (r: seq<string>)
    ensures SingleValued(v) ==> |r| == 1
    ensures ListValued(v) ==> r == Elements(v)
    ensures v.Other? ==> r == []
    ensures v.Title? ==> r == [Join(v.segments)]
    ensures v.Select? ==> r == [v.option]
    ensures v.Url? ==> r == [v.url]
    ensures v.Email? ==> r == [v.email]
    ensures v.PhoneNumber? ==> r == [v.phone]
    ensures v.Formula? ==> r == [v.text]
    ensures v.Number? ==> r == [render.number(v.number)]
    ensures v.CreatedTime? ==> r == [render.unixSeconds(v.created)]
    ensures v.LastEditedTime? ==> r == [render.unixSeconds(v.edited)]
    ensures v.CreatedBy? ==> r == [v.creator]
    ensures v.LastEditedBy? ==> r == [v.editor]
    ensures v.Checkbox? ==> r == [if v.checked then "true" else "false"]
    ensures v.Date? ==> |r| == Present(v.start) + Present(v.end)
    ensures v.Date? && v.start.Some? ==> r[0] == render.date(v.start.value)
    ensures v.Date? && v.end.Some? ==> r[|r| - 1] == render.date(v.end.value)
  {
    match v
    case Title(segments) => [Join(segments)]
    case RichText(segments) => segments
    case Text(segments) => segments
    case Date(start, end) =>
      (if start.Some? then [render.date(start.value)] else [])
      + (if end.Some? then [render.date(end.value)] else [])
    case Select(option) => [option]
    case MultiSelect(options) => options
    case Url(url) => [url]
    case Checkbox(checked) => [if checked then "true" else "false"]
    case Email(email) => [email]
    case PhoneNumber(phone) => [phone]
    case Formula(text) => [text]
    case Number(number) => [render.number(number)]
    case CreatedTime(created) => [render.unixSeconds(created)]
    case LastEditedTime(edited) => [render.unixSeconds(edited)]
    case CreatedBy(creator) => [creator]
    case LastEditedBy(editor) => [editor]
    case People(people) => people
    case Other(_) => []
  }

  /** One page as a `DataItem`: the id loses its hyphens, and every property
      is kept, under its own name and in enumeration order, even when its
      kind yields no value. */
  function ProcessPage(p: RemotePage, render: Renderers): (r: DataItem)
    ensures '-' !in r.id && r.id == Identifiers.Strip(p.id, '-')
    ensures r.lastUpdated == p.lastEdited
    ensures |r.properties| == |p.properties|
    ensures forall j :: 0 <= j < |r.properties| ==>
              r.properties[j].name == p.properties[j].name
              && r.properties[j].values == PropertyValues(p.properties[j].value, render)
  {
    DataItem(Identifiers.Strip(p.id, '-'),
             seq(|p.properties|, j requires 0 <= j < |p.properties| =>
                   DataProperty(p.properties[j].name, PropertyValues(p.properties[j].value, render))),
             p.lastEdited)
  }

  /** One `DataItem` per page, in page order. */
  function ProcessPageProperties(pages: seq<RemotePage>, render: Renderers): (r: seq<DataItem>)
    ensures |r| == |pages|
    ensures forall i :: 0 <= i < |pages| ==> r[i] == ProcessPage(pages[i], render)
    decreases |pages|
  {
    if pages == [] then [] else [ProcessPage(pages[0], render)] + ProcessPageProperties(pages[1..], render)
  }

  /** Normalising two batches of pages one after the other gives the
      normalisation of the joined batch. */
  lemma ProcessAppend(a: seq<RemotePage>, b: seq<RemotePage>, render: Renderers)
    ensures ProcessPageProperties(a + b, render) == ProcessPageProperties(a, render) + ProcessPageProperties(b, render)
  {
    var l := ProcessPageProperties(a + b, render);
    var r := ProcessPageProperties(a, render) + ProcessPageProperties(b, render);
    assert |l| == |r|;
    forall i | 0 <= i < |l|
      ensures l[i] == r[i]
    {
      if i < |a| {
        assert (a + b)[i] == a[i];
      } else {
        assert (a + b)[i] == b[i - |a|];
      }
    }
  }
}

=== FILE: time.dfy ===
/** Time as the service sees it. */
module Time {

  /** A point in time, in nanoseconds since the Unix epoch. */
  type Instant = int

  const Second: int := 1_000_000_000
  const Minute: int := 60 * Second
}

=== FILE: wrappers.dfy ===
/** Failure-carrying values shared by the rest of the model. */
module Wrappers {

  /** A value that may be absent, such as the optional ends of a date range. */
  datatype Option<+T> = None | Some(value: T)

  /** The `(value, error)` pair a Go function returns, as a sum type. */
  datatype Result<+T, +E> = Ok(value: T) | Err(error: E)
}
